=== FILE: README.md ===
# Particle field — a Dafny model

This project models the particle field animation of a portfolio page
(`ParticleAnimation`, a React component drawing on a 2D canvas). The
component seeds a population of moving points whose size follows the
canvas area and a `density` prop. Each frame it moves every point, bouncing
it off the canvas edges, and draws a fading line between every pair of
points closer than `maxDistance`. It reseeds a non-empty field on window
resize and stops when the component unmounts.

Everything is modelled with pure functions over immutable data and `real`
arithmetic:

- `canvas.dfy` (`Canvas`): the drawing commands a frame issues. These are
  `Clear`, `Disc` and `Line`, with numeric HSLA colours.
- `particle.dfy` (`Particles`): the `Particle` record. It covers the
  constructor (with `Math.random()` replaced by seven injected draws in
  [0, 1)), `update` (move, then reflect the velocity without clamping) and
  `draw`.
- `population.dfy` (`Population`): `init`. The population size is the number
  of indices `i` with `i < floor(W*H/10000) * density / 100`, which is a
  ceiling, not a floor. `Init` is the loop as written and `Seed` is its
  closed form.
- `pairs.dfy` (`PairScan`): the index pairs `a <= b` that the nested loops of
  `connect` visit, self-pairs included.
- `links.dfy` (`Links`): `connect`. A line is drawn for every visited pair
  strictly closer than `maxDistance`, with alpha
  `(1 - d/maxDistance) * 0.2 * opacity`. `Math.sqrt` is a parameter `sqrt`
  constrained by `IsSqrt`: non-negative, zero at zero, strictly increasing.
- `frame.dfy` (`Frame`): `animate`. It clears, updates and draws particle by
  particle, then links the moved particles.
- `lifecycle.dfy` (`Lifecycle`): the effect as a state machine over
  `Unmounted`, `Inert` and `Running`.
  - `Inert` means the effect found no canvas or context and returned early.
  - The events are `Mount`, `Resize`, `Tick` (a scheduled frame) and
    `Teardown` (the effect's cleanup).
  - The frame scheduler becomes a pending-frame flag and the resize
    subscription becomes a listener count.

Behaviour of the code worth knowing:

- The population size rounds a fractional bound up (the loop runs while
  `i < numberOfParticles`), not down. For example, `k = 7` and
  `density = 150` give 11 particles.
- Self-pairs are visited, and with a positive `maxDistance` each one strokes
  a zero-length line at alpha `0.2 * opacity`.
- For a positive `speed`, velocity components start in `[-speed/2, speed/2)`.
  Whatever the sign of `speed`, each is at most `|speed|/2` in magnitude.
- A particle is not kept inside the canvas after every tick. It can overshoot
  an edge by at most one tick's speed, and the next tick brings it back
  exactly (`BounceBackX`, `ContainedOvershoot`).
- A resize reseeds only a non-empty population. A field that is empty after
  mounting, for example on a container under 10000 square pixels, stays
  empty until the next mount. The same holds for a populated field resized
  to a container under 10000 square pixels: the reseed yields no particles,
  and later resizes never bring any back (`EmptyStaysEmpty`).

## Model

| member | source | states |
|---|---|---|
| Particles.Construct | src/components/ui/particle-animation.tsx:55-62 | with draws in [0,1): x in [0,W) (0 when W is 0), y in [0,H) (0 when H is 0), size in [1,4), for a positive speed each velocity component in [-speed/2, speed/2), and for any speed at most half the absolute speed in magnitude, hue 160, saturation 100, lightness in [50,70), alpha in [0.1,0.4) |
| Particles.Spread | src/components/ui/particle-animation.tsx:56-57 | `Math.random() * extent` lies in [0, extent), or is 0 on an empty axis |
| Particles.Jitter | src/components/ui/particle-animation.tsx:59-60 | `(Math.random() - 0.5) * speed` lies in [-speed/2, speed/2) for positive speed and never exceeds half the speed in magnitude |
| Particles.Update | src/components/ui/particle-animation.tsx:64-76 | the position moves by exactly the pre-tick velocity; size and colour are unchanged; each velocity component is negated when the new coordinate is beyond either edge of its axis and kept otherwise, each axis on its own |
| Particles.ConstructContained | src/components/ui/particle-animation.tsx:55-57 | a new particle lies inside [0,W] x [0,H] |
| Particles.ConstructFollowsDraws | src/components/ui/particle-animation.tsx:55-61 | each attribute is driven by its own draw, in the order the constructor draws them: a larger draw for x (on a non-empty width), y (on a non-empty height), size, either velocity component (for a positive speed), lightness or alpha gives a strictly larger value, whatever the other draws |
| Particles.UpdateKeepsSpeed | src/components/ui/particle-animation.tsx:68-75 | reflection preserves both velocity magnitudes |
| Particles.BounceBackX | src/components/ui/particle-animation.tsx:64-71 | a particle with x in [0,W] that one tick carries outside is returned by the next tick to exactly its old x, moving with the negated x velocity |
| Particles.BounceBackY | src/components/ui/particle-animation.tsx:64-75 | the same for y against the height |
| Particles.UpdateKeepsContained | src/components/ui/particle-animation.tsx:64-75 | "each axis is in range or one step from it" is kept by every tick on a fixed surface |
| Particles.ContainedOvershoot | src/components/ui/particle-animation.tsx:68-75 | a contained particle overshoots an edge by at most its speed on that axis |
| Particles.Render | src/components/ui/particle-animation.tsx:78-84 | `draw` fills one disc centred on the particle's position, with its size as radius and its own colour; its place in the frame is stated by `Frame.FrameDiscs` |
| Population.PopulationSize | src/components/ui/particle-animation.tsx:90-94 | the loop count is the first index the guard `i < numberOfParticles` refuses, and every smaller index is admitted |
| Population.AdmitsExactlyBelowSize | src/components/ui/particle-animation.tsx:92 | an index gets a particle if and only if it is below the population size |
| Population.PopulationSizeIsCeiling | src/components/ui/particle-animation.tsx:90-94 | the size is 0 for a non-positive bound and otherwise the ceiling of the bound |
| Population.Seed | src/components/ui/particle-animation.tsx:88-95 | a reseed has exactly the population size for the current dimensions and density, and particle i is built from the i-th draws, inside the surface |
| Population.Init | src/components/ui/particle-animation.tsx:88-95 | the truncate-then-push loop yields exactly `Seed` for the current dimensions, whatever the array held before |
| Population.SizeExamples | src/components/ui/particle-animation.tsx:90-91 | 700x100 at density 150 gives 11; 1000x1000 gives 100, or 50 at half density; 800x600 gives 48; 0x0 and 99x100 give 0 |
| Population.SmallSurfaceIsEmpty | src/components/ui/particle-animation.tsx:90-91 | a surface under 10000 square pixels gets no particles at any density |
| PairScan.PairsMembers | src/components/ui/particle-animation.tsx:103-104 | the nested loops visit (a,b) if and only if a <= b < n |
| PairScan.PairsLength | src/components/ui/particle-animation.tsx:103-104 | n particles give n(n+1)/2 visited pairs |
| PairScan.PairsDistinct | src/components/ui/particle-animation.tsx:103-104 | no pair is visited twice |
| Links.SquaredDistanceFacts | src/components/ui/particle-animation.tsx:105-107 | `dx*dx + dy*dy` is non-negative, symmetric in the pair and zero for a self-pair |
| Links.DistanceFacts | src/components/ui/particle-animation.tsx:105-107 | the distance is non-negative, symmetric in the pair, and zero from a particle to itself |
| Links.LinkAlpha | src/components/ui/particle-animation.tsx:110-111 | for a distance in [0, maxDistance), the stroke alpha is 0.2*opacity at distance 0, and for a positive opacity it lies in (0, 0.2*opacity] |
| Links.LinkAlphaFalls | src/components/ui/particle-animation.tsx:110-111 | for a non-negative opacity, alpha does not grow with the distance |
| Links.ConnectRow | src/components/ui/particle-animation.tsx:104-118 | the inner loop emits exactly the lines of row a, in order |
| Links.Connect | src/components/ui/particle-animation.tsx:102-120 | the nested loops emit exactly the lines of the link pass over all pairs a <= b, in visiting order |
| Links.LinksOverMembers | src/components/ui/particle-animation.tsx:103-117 | a visited pair closer than maxDistance has its line emitted, and every emitted line belongs to such a pair |
| Links.LinkedPairDrawn | src/components/ui/particle-animation.tsx:103-117 | every pair a <= b closer than maxDistance is linked in the pass |
| Links.DrawnLineLinked | src/components/ui/particle-animation.tsx:103-117 | every line of the pass joins a pair a <= b closer than maxDistance |
| Links.DrawnLineFaint | src/components/ui/particle-animation.tsx:109-116 | for a positive opacity, every line is a width-1 stroke of hue 160 and lightness 70 with alpha in (0, 0.2*opacity] |
| Links.SelfPairDrawn | src/components/ui/particle-animation.tsx:104-116 | with a positive maxDistance, every particle gets a zero-length self-line at alpha 0.2*opacity |
| Links.LinkSymmetric | src/components/ui/particle-animation.tsx:105-116 | the link test and the alpha do not depend on the order of the pair, and the segment is reversed |
| Links.CloserPairLinked | src/components/ui/particle-animation.tsx:105-109 | a pair no farther apart than a linked pair is linked |
| Links.NoReachNoLines | src/components/ui/particle-animation.tsx:109 | with maxDistance <= 0 no line is drawn |
| Links.LinksBound | src/components/ui/particle-animation.tsx:103-104 | a pass over n particles strokes at most n(n+1)/2 lines |
| Frame.AnimateFrame | src/components/ui/particle-animation.tsx:125-135 | the update-then-draw loop followed by `connect` yields exactly the whole-frame definition `Animate` |
| Frame.FrameOrder | src/components/ui/particle-animation.tsx:125-131 | a frame issues the clear of the whole surface first, and the next commands, one per particle, are all discs |
| Frame.FrameDiscs | src/components/ui/particle-animation.tsx:125-131 | the command right after the clear for particle i is its disc, in population order, at its updated position with its own size and colour (alpha not scaled by opacity) |
| Frame.FrameLineEndpoints | src/components/ui/particle-animation.tsx:128-133 | every command after the discs is a line joining the updated positions of two particles, so links use post-update positions |
| Frame.FrameMovesByVelocity | src/components/ui/particle-animation.tsx:128-131 | a frame keeps the population size and moves every particle by exactly its velocity, keeping its size and colour |
| Frame.FrameKeepsContained | src/components/ui/particle-animation.tsx:128-131 | a frame keeps every particle within one step of the surface |
| Lifecycle.StepKeepsGood | src/components/ui/particle-animation.tsx:22-145 | every event keeps a state good: a frame is pending and one listener is registered exactly when running, nothing is held otherwise, and every particle is within one step of the current surface |
| Lifecycle.RunKeepsGood | src/components/ui/particle-animation.tsx:22-145 | the same over any sequence of events |
| Lifecycle.ReachableGood | src/components/ui/particle-animation.tsx:22-145 | every state reachable from the unmounted start by any events is good |
| Lifecycle.MountEffect | src/components/ui/particle-animation.tsx:22-140 | the effect ends inert (nothing drawn, no particles, listeners or frame added) exactly when the canvas or its 2D context is missing; otherwise it runs, with one frame pending, one more listener, and at least one command drawn; `MountSeedsOnce` and `MountWithoutContextIsInert` state the rest |
| Lifecycle.ResizeEffect | src/components/ui/particle-animation.tsx:30-42 | a resize draws nothing; without a parent it changes nothing; an empty field stays empty; a non-empty one is reseeded to the population size for the parent's size (see `ResizeReseeds`, `ResizeKeepsEmptyEmpty`) |
| Lifecycle.Step | src/components/ui/particle-animation.tsx:22-145 | only a mount from the unmounted phase starts the component running; only a mount or a pending frame while running draws anything; cleanup always unmounts without drawing and, from running, drops the particles, the pending frame and the listener; a second mount while mounted is ignored; a scheduled frame while running is stated by `TickRunsFrame` |
| Lifecycle.TickRunsFrame | src/components/ui/particle-animation.tsx:125-135 | while running, each scheduled frame advances the particles by exactly one whole frame and draws exactly that frame's commands (clear, discs, lines), leaving the next frame pending and the one listener in place |
| Lifecycle.MountWithoutContextIsInert | src/components/ui/particle-animation.tsx:23-27 | without a canvas or a 2D context the effect seeds nothing, schedules nothing, registers nothing and draws nothing |
| Lifecycle.MountSeedsOnce | src/components/ui/particle-animation.tsx:97-140 | a mount seeds once for the parent's size (or the canvas's own without a parent) from the mount's draws; the particles become that seed moved by one frame; the commands are exactly that whole first frame (clear, discs, lines); one frame stays pending and one listener is registered |
| Lifecycle.MountScenario | src/components/ui/particle-animation.tsx:97-137 | mounting on an 800x600 parent with the default props seeds 48 particles and the first frame moves each by exactly its initial velocity |
| Lifecycle.ResizeReseeds | src/components/ui/particle-animation.tsx:30-42 | a resize of a non-empty field replaces the whole population by a fresh seed sized for the new dimensions |
| Lifecycle.ResizeKeepsEmptyEmpty | src/components/ui/particle-animation.tsx:37-40 | a resize of an empty field records the new size but seeds nothing |
| Lifecycle.EmptyStaysEmpty | src/components/ui/particle-animation.tsx:37-40 | without a new mount, an empty field stays empty whatever frames and resizes follow |
| Lifecycle.SmallMountNeverPopulated | src/components/ui/particle-animation.tsx:88-99 | a first mount on a container under 10000 square pixels never gets particles before the next mount |
| Lifecycle.TeardownIdempotent | src/components/ui/particle-animation.tsx:142-145 | teardown unmounts, releases the listener, cancels the frame and draws nothing; a second teardown changes nothing |
| Lifecycle.QuietAfterTeardown | src/components/ui/particle-animation.tsx:142-145 | once not running, no frame is drawn, the component stays stopped and its particles do not change until the next mount, whatever frames or resizes arrive |

## Left out

- Canvas 2D calls (`clearRect`, `arc`, `fill`, `moveTo`, `lineTo`, `stroke`)
  are reduced to `Clear`, `Disc` and `Line` commands. Building the `hsla(...)`
  strings is left out because it is string formatting of the numeric fields.
- `Math.random()` is replaced by injected draws in [0, 1), one `Sample` of
  seven draws per particle and one draw stream per reseed, because
  randomness is not computable.
- `Math.sqrt` is the parameter `sqrt`. The model relies only on the facts in
  `IsSqrt`, not on a closed-form square root, because Dafny's reals have
  none.
- IEEE double arithmetic is modelled as exact `real` arithmetic. Rounding,
  NaN and infinities are not modelled. In particular `BounceBackX` and
  `BounceBackY` return exactly to the old coordinate over the reals, whereas
  doubles may differ in the last bit.
- `getBoundingClientRect` and the DOM's conversion of a fractional layout
  size to the integer `canvas.width`/`canvas.height` are left out, because
  they belong to the browser. A measured container is given directly as
  whole pixels.
- `requestAnimationFrame`, `cancelAnimationFrame` and the window resize
  subscription are reduced to the pending-frame flag, the listener count and
  the `Tick`, `Resize` and `Teardown` events, because timing belongs to the
  host.
- React's re-run of the effect when a prop changes is modelled as a
  `Teardown` followed by a new `Mount`, because that is the order React uses.
- Prop defaulting is represented only by `DefaultConfig`, because a mount
  carries the resolved props. The JSX element, `className` and the CSS
  `opacity` style on the canvas are left out as markup.
- Assigning `canvas.width` also clears the bitmap. This is not modelled,
  because the next frame clears the surface anyway.

=== FILE: canvas.dfy ===
/** The drawing surface, reduced to the commands a frame issues.
    Colours stay numeric (hue in degrees, saturation and lightness in
    percent, alpha in [0,1]); turning them into CSS strings is left out. */
module Canvas {

  datatype Point = Point(x: real, y: real)

  datatype Hsla = Hsla(hue: real, saturation: real, lightness: real, alpha: real)

  datatype Command =
    | Clear(width: nat, height: nat)
    | Disc(center: Point, radius: real, fill: Hsla)
    | Line(from: Point, to: Point, stroke: Hsla, lineWidth: real)
}

=== FILE: frame.dfy ===
/** `animate`: one frame clears the surface, updates and draws every
    particle in turn, and only then runs the link pass over the moved
    particles. */
module Frame {
  import opened Canvas
  import opened Particles
  import opened Links

  datatype FrameResult = FrameResult(particles: seq<Particle>, commands: seq<Command>)

  /** Every particle after one `update`. */
  function StepAll(ps: seq<Particle>, width: nat, height: nat): (qs: seq<Particle>)
    ensures |qs| == |ps|
    ensures forall i :: 0 <= i < |ps| ==> qs[i] == Update(ps[i], width, height)
  {
    seq(|ps|, i requires 0 <= i < |ps| => Update(ps[i], width, height))
  }

  function Discs(ps: seq<Particle>): (cs: seq<Command>)
    ensures |cs| == |ps|
    ensures forall i :: 0 <= i < |ps| ==> cs[i] == Render(ps[i])
  {
    seq(|ps|, i requires 0 <= i < |ps| => Render(ps[i]))
  }

  /** The frame `animate` draws, stated as a whole. */
  function Animate(sqrt: real -> real, config: Config, width: nat, height: nat, ps: seq<Particle>): (r: FrameResult)
    requires IsSqrt(sqrt)
  {
    var moved := StepAll(ps, width, height);
    FrameResult(moved, [Clear(width, height)] + Discs(moved) + LinkPass(sqrt, config, moved))
  }

  /** `animate` as written: clear, then `update` and `draw` particle by
      particle, then `connect`. */
  method AnimateFrame(sqrt: real -> real, config: Config, width: nat, height: nat, ps: seq<Particle>)
    returns (moved: seq<Particle>, commands: seq<Command>)
    requires IsSqrt(sqrt)
    ensures FrameResult(moved, commands) == Animate(sqrt, config, width, height, ps)
  {
    commands := [Clear(width, height)];
    moved := ps;
    var i := 0;
    while i < |moved|
      invariant 0 <= i <= |moved| == |ps|
      invariant forall k :: 0 <= k < i ==> moved[k] == Update(ps[k], width, height)
      invariant forall k :: i <= k < |ps| ==> moved[k] == ps[k]
      invariant commands == [Clear(width, height)] + Discs(moved[..i])
    {
      moved := moved[i := Update(moved[i], width, height)];
      commands := commands + [Render(moved[i])];
      assert moved[..i + 1] == moved[..i] + [moved[i]];
      i := i + 1;
    }
    assert moved == moved[..i] == StepAll(ps, width, height);
    var lines := Connect(sqrt, config, moved);
    commands := commands + lines;
  }

  /** A line of a frame joins the updated positions of two particles. */
  lemma FrameLineEndpoints(sqrt: real -> real, config: Config, width: nat, height: nat, ps: seq<Particle>, k: nat)
    requires IsSqrt(sqrt)
    requires 1 + |ps| <= k < |Animate(sqrt, config, width, height, ps).commands|
    ensures var c := Animate(sqrt, config, width, height, ps).commands[k];
      c.Line? &&
      exists a: nat, b: nat :: a <= b < |ps|
        && c.from == Position(Update(ps[a], width, height))
        && c.to == Position(Update(ps[b], width, height))
  {
    var moved := StepAll(ps, width, height);
    var lines := LinkPass(sqrt, config, moved);
    var c := Animate(sqrt, config, width, height, ps).commands[k];
    assert c == lines[k - 1 - |ps|];
    DrawnLineLinked(sqrt, config, moved, c);
    var a: nat, b: nat :| a <= b < |moved| && Linked(sqrt, config, moved[a], moved[b])
                          && c == Link(sqrt, config, moved[a], moved[b]);
    assert c.from == Position(Update(ps[a], width, height));
    assert c.to == Position(Update(ps[b], width, height));
  }

  /** A frame opens by clearing the whole surface, and one disc per
      particle follows the clear. */
  lemma FrameOrder(sqrt: real -> real, config: Config, width: nat, height: nat, ps: seq<Particle>)
    requires IsSqrt(sqrt)
    ensures var r := Animate(sqrt, config, width, height, ps);
      && |r.commands| >= 1 + |ps|
      && r.commands[0] == Clear(width, height)
      && forall k :: 1 <= k <= |ps| ==> r.commands[k].Disc?
  {
  }

  /** After the clear come the discs, one per particle and in order, each
      at the particle's updated position with its own size and colour;
      after them only the lines (`FrameLineEndpoints`). */
  lemma FrameDiscs(sqrt: real -> real, config: Config, width: nat, height: nat, ps: seq<Particle>, i: nat)
    requires IsSqrt(sqrt)
    requires i < |ps|
    ensures Animate(sqrt, config, width, height, ps).commands[1 + i]
         == Disc(Position(Update(ps[i], width, height)), ps[i].size, ps[i].color)
  {
    var moved := StepAll(ps, width, height);
    var discs := Discs(moved);
    assert Animate(sqrt, config, width, height, ps).commands
        == [Clear(width, height)] + discs + LinkPass(sqrt, config, moved);
    assert discs[i] == Render(moved[i]);
  }

  /** A frame moves every particle by exactly its velocity and changes
      neither the population size nor any particle's size or colour. */
  lemma FrameMovesByVelocity(sqrt: real -> real, config: Config, width: nat, height: nat, ps: seq<Particle>)
    requires IsSqrt(sqrt)
    ensures var r := Animate(sqrt, config, width, height, ps);
      && |r.particles| == |ps|
      && forall i :: 0 <= i < |ps| ==>
           && r.particles[i].x == ps[i].x + ps[i].speedX
           && r.particles[i].y == ps[i].y + ps[i].speedY
           && r.particles[i].size == ps[i].size
           && r.particles[i].color == ps[i].color
  {
  }

  /** A frame keeps every particle within one step of the surface. */
  lemma FrameKeepsContained(sqrt: real -> real, config: Config, width: nat, height: nat, ps: seq<Particle>)
    requires IsSqrt(sqrt)
    requires forall i :: 0 <= i < |ps| ==> Contained(ps[i], width, height)
    ensures var r := Animate(sqrt, config, width, height, ps);
      forall i :: 0 <= i < |r.particles| ==> Contained(r.particles[i], width, height)
  {
  }
}

=== FILE: lifecycle.dfy ===
/** The effect that owns the particle field: mount, resize, frames and
    teardown, as a state machine. The frame scheduler and the resize
    subscription are reduced to a pending-frame flag and a listener count. */
module Lifecycle {
  import opened Canvas
  import opened Particles
  import opened Population
  import opened Links
  import opened Frame

  /** `Unmounted`: no effect is active. `Inert`: the effect ran but found no
      canvas or no 2D context and returned without a cleanup. `Running`: a
      frame is scheduled and the resize listener is registered. */
  datatype Phase = Unmounted | Inert | Running

  /** The measured size of the canvas's parent, or no parent at all. */
  datatype Container = NoParent | Parent(width: nat, height: nat)

  datatype State = State(phase: Phase, config: Config, width: nat, height: nat,
                         particles: seq<Particle>, listeners: nat, framePending: bool)

  datatype Event =
    | Mount(config: Config, hasCanvas: bool, hasContext: bool,
            canvasWidth: nat, canvasHeight: nat, container: Container, draws: nat -> Sample)
    | Resize(container: Container, draws: nat -> Sample)
    | Tick
    | Teardown

  datatype Outcome = Outcome(state: State, commands: seq<Command>)

  const Initial := State(Unmounted, DefaultConfig, 0, 0, [], 0, false)

  /** What a state owns matches its phase, and every particle is within one
      step of the current surface. */
  predicate Good(s: State)
  {
    && (s.framePending <==> s.phase == Running)
    && s.listeners == (if s.phase == Running then 1 else 0)
    && (s.phase != Running ==> s.particles == [])
    && forall i :: 0 <= i < |s.particles| ==> Contained(s.particles[i], s.width, s.height)
  }

  /** The effect body: early returns, `setCanvasDimensions` (which does not
      reseed an empty array), `init`, the first `animate`, and the listener. */
  function MountEffect(s: State, e: Event, sqrt: real -> real): (o: Outcome)
    requires IsSqrt(sqrt) && e.Mount? && s.phase == Unmounted
    ensures o.state.phase == Inert <==> !e.hasCanvas || !e.hasContext
    ensures o.state.phase == Inert ==> o.commands == [] && o.state.particles == s.particles
                                       && o.state.listeners == s.listeners && o.state.framePending == s.framePending
    ensures o.state.phase != Inert ==> o.state.phase == Running && o.state.framePending
                                       && o.state.listeners == s.listeners + 1 && |o.commands| >= 1
    ensures o.state.config == e.config
  {
    if !e.hasCanvas || !e.hasContext then
      Outcome(s.(phase := Inert, config := e.config), [])
    else
      var width := if e.container.Parent? then e.container.width else e.canvasWidth;
      var height := if e.container.Parent? then e.container.height else e.canvasHeight;
      var frame := Animate(sqrt, e.config, width, height, Seed(width, height, e.config, e.draws));
      Outcome(State(Running, e.config, width, height, frame.particles, s.listeners + 1, true), frame.commands)
  }

  /** `setCanvasDimensions` on a resize: take the parent's size, and reseed
      only if the current population is non-empty. */
  function ResizeEffect(s: State, container: Container, draws: nat -> Sample): (o: Outcome)
    requires s.phase == Running
    ensures o.commands == [] && o.state.phase == s.phase && o.state.config == s.config
    ensures o.state.listeners == s.listeners && o.state.framePending == s.framePending
    ensures container.NoParent? ==> o.state == s
    ensures |s.particles| == 0 ==> o.state.particles == []
    ensures |s.particles| > 0 && container.Parent? ==>
      |o.state.particles| == SeedSize(container.width, container.height, s.config)
  {
    match container
    case NoParent => Outcome(s, [])
    case Parent(width, height) =>
      var ps := if |s.particles| > 0 then Seed(width, height, s.config, draws) else s.particles;
      Outcome(s.(width := width, height := height, particles := ps), [])
  }

  function Step(s: State, e: Event, sqrt: real -> real): (o: Outcome)
    requires IsSqrt(sqrt)
    ensures o.state.phase == Running ==> s.phase == Running || (s.phase == Unmounted && e.Mount?)
    ensures e.Teardown? ==> o.state.phase == Unmounted && o.commands == []
    ensures e.Teardown? && s.phase == Running ==>
      o.state.particles == [] && !o.state.framePending
      && o.state.listeners == (if s.listeners > 0 then s.listeners - 1 else 0)
    ensures o.commands != [] ==> (e.Tick? && s.phase == Running) || (e.Mount? && s.phase == Unmounted)
    ensures s.phase != Unmounted && e.Mount? ==> o == Outcome(s, [])
  {
    match e
    case Mount(_, _, _, _, _, _, _) =>
      if s.phase == Unmounted then MountEffect(s, e, sqrt) else Outcome(s, [])
    case Resize(container, draws) =>
      if s.phase == Running then ResizeEffect(s, container, draws) else Outcome(s, [])
    case Tick =>
      if s.phase == Running && s.framePending then
        var frame := Animate(sqrt, s.config, s.width, s.height, s.particles);
        Outcome(s.(particles := frame.particles), frame.commands)
      else Outcome(s, [])
    case Teardown =>
      match s.phase
      case Running =>
        // removing a listener that is not registered does nothing
        var listeners := if s.listeners > 0 then s.listeners - 1 else 0;
        Outcome(s.(phase := Unmounted, particles := [], listeners := listeners, framePending := false), [])
      case Inert => Outcome(s.(phase := Unmounted), [])
      case Unmounted => Outcome(s, [])
  }

  /** Runs a sequence of events, collecting everything drawn. */
  function Run(s: State, events: seq<Event>, sqrt: real -> real): Outcome
    requires IsSqrt(sqrt)
    decreases |events|
  {
    if |events| == 0 then Outcome(s, [])
    else
      var first := Step(s, events[0], sqrt);
      var rest := Run(first.state, events[1..], sqrt);
      Outcome(rest.state, first.commands + rest.commands)
  }

  /** Every event keeps a good state good. */
  lemma StepKeepsGood(s: State, e: Event, sqrt: real -> real)
    requires IsSqrt(sqrt) && Good(s)
    ensures Good(Step(s, e, sqrt).state)
  {
  }

  lemma {:induction false} RunKeepsGood(s: State, events: seq<Event>, sqrt: real -> real)
    requires IsSqrt(sqrt) && Good(s)
    ensures Good(Run(s, events, sqrt).state)
    decreases |events|
  {
    if |events| > 0 {
      StepKeepsGood(s, events[0], sqrt);
      RunKeepsGood(Step(s, events[0], sqrt).state, events[1..], sqrt);
    }
  }

  /** Every state reachable from the initial one is good. */
  lemma ReachableGood(events: seq<Event>, sqrt: real -> real)
    requires IsSqrt(sqrt)
    ensures Good(Run(Initial, events, sqrt).state)
  {
    RunKeepsGood(Initial, events, sqrt);
  }

  /** While running, every scheduled frame runs the whole frame once: the
      particles advance by one `Animate` step, its commands are drawn, and
      the next frame is already pending with the same single listener. */
  lemma TickRunsFrame(s: State, sqrt: real -> real)
    requires IsSqrt(sqrt) && Good(s) && s.phase == Running
    ensures var o := Step(s, Tick, sqrt);
      var f := Animate(sqrt, s.config, s.width, s.height, s.particles);
      && o.state == s.(particles := f.particles)
      && o.commands == f.commands
      && o.state.framePending && o.state.listeners == 1
  {
  }

  /** A mount without a canvas or a 2D context does nothing: no particles,
      no frame, no listener, no drawing. */
  lemma MountWithoutContextIsInert(s: State, e: Event, sqrt: real -> real)
    requires IsSqrt(sqrt) && Good(s) && s.phase == Unmounted && e.Mount?
    requires !e.hasCanvas || !e.hasContext
    ensures Step(s, e, sqrt).state.phase == Inert
    ensures Step(s, e, sqrt).state.particles == []
    ensures Step(s, e, sqrt).state.listeners == 0 && !Step(s, e, sqrt).state.framePending
    ensures Step(s, e, sqrt).commands == []
  {
  }

  /** A mount with a context seeds once for the measured size (the parent's,
      or the canvas's own when it has no parent), runs the first frame at
      once on that seed, and leaves one frame pending and one listener
      registered. */
  lemma MountSeedsOnce(s: State, e: Event, sqrt: real -> real)
    requires IsSqrt(sqrt) && Good(s) && s.phase == Unmounted && e.Mount?
    requires e.hasCanvas && e.hasContext
    ensures var width := if e.container.Parent? then e.container.width else e.canvasWidth;
      var height := if e.container.Parent? then e.container.height else e.canvasHeight;
      var o := Step(s, e, sqrt);
      var seeded := Seed(width, height, e.config, e.draws);
      && o.state.phase == Running && o.state.framePending && o.state.listeners == 1
      && o.state.width == width && o.state.height == height
      && |seeded| == SeedSize(width, height, e.config)
      && o.state.particles == StepAll(seeded, width, height)
      && o.commands == Animate(sqrt, e.config, width, height, seeded).commands
      && |o.commands| >= 1 && o.commands[0] == Clear(width, height)
  {
  }

  /** Mounting on an 800x600 parent with the default props seeds 48
      particles and draws the first frame, which moves each of them by
      exactly its initial velocity. */
  lemma MountScenario(s: State, draws: nat -> Sample, sqrt: real -> real)
    requires IsSqrt(sqrt) && s.phase == Unmounted
    ensures var seeded := Seed(800, 600, DefaultConfig, draws);
      var o := Step(s, Mount(DefaultConfig, true, true, 300, 150, Parent(800, 600), draws), sqrt);
      && |seeded| == 48
      && |o.state.particles| == 48
      && forall i :: 0 <= i < 48 ==>
           o.state.particles[i].x == seeded[i].x + seeded[i].speedX
           && o.state.particles[i].y == seeded[i].y + seeded[i].speedY
  {
    SizeExamples();
    FrameMovesByVelocity(sqrt, DefaultConfig, 800, 600, Seed(800, 600, DefaultConfig, draws));
  }

  /** A resize with a parent replaces a non-empty population by a fresh seed
      for the new size. */
  lemma ResizeReseeds(s: State, width: nat, height: nat, draws: nat -> Sample, sqrt: real -> real)
    requires IsSqrt(sqrt) && s.phase == Running && |s.particles| > 0
    ensures var o := Step(s, Resize(Parent(width, height), draws), sqrt);
      && o.state.particles == Seed(width, height, s.config, draws)
      && |o.state.particles| == SeedSize(width, height, s.config)
      && o.state.width == width && o.state.height == height
      && o.commands == []
  {
  }

  /** A resize never repopulates an empty field, though it still records the
      new size. */
  lemma ResizeKeepsEmptyEmpty(s: State, e: Event, sqrt: real -> real)
    requires IsSqrt(sqrt) && e.Resize? && |s.particles| == 0
    ensures Step(s, e, sqrt).state.particles == []
    ensures s.phase == Running && e.container.Parent? ==>
      Step(s, e, sqrt).state.width == e.container.width && Step(s, e, sqrt).state.height == e.container.height
  {
  }

  predicate NoMount(events: seq<Event>)
  {
    forall k :: 0 <= k < |events| ==> !events[k].Mount?
  }

  /** Without a new mount an empty field stays empty for ever: a first mount
      on a surface under 10000 square pixels never gets particles. */
  lemma {:induction false} EmptyStaysEmpty(s: State, events: seq<Event>, sqrt: real -> real)
    requires IsSqrt(sqrt) && |s.particles| == 0 && NoMount(events)
    ensures Run(s, events, sqrt).state.particles == []
    decreases |events|
  {
    if |events| > 0 {
      var next := Step(s, events[0], sqrt).state;
      assert next.particles == [] by {
        if events[0].Tick? && s.phase == Running && s.framePending {
          FrameMovesByVelocity(sqrt, s.config, s.width, s.height, s.particles);
        }
      }
      assert NoMount(events[1..]) by {
        forall k | 0 <= k < |events[1..]| ensures !events[1..][k].Mount? {
          assert events[1..][k] == events[k + 1];
        }
      }
      EmptyStaysEmpty(next, events[1..], sqrt);
    }
  }

  lemma SmallMountNeverPopulated(s: State, e: Event, events: seq<Event>, sqrt: real -> real)
    requires IsSqrt(sqrt) && s.phase == Unmounted && e.Mount? && e.hasCanvas && e.hasContext
    requires e.container.Parent? && e.container.width * e.container.height < AreaPerParticle
    requires NoMount(events)
    ensures Run(Step(s, e, sqrt).state, events, sqrt).state.particles == []
  {
    SmallSurfaceIsEmpty(e.container.width, e.container.height, e.config);
    FrameMovesByVelocity(sqrt, e.config, e.container.width, e.container.height,
                         Seed(e.container.width, e.container.height, e.config, e.draws));
    EmptyStaysEmpty(Step(s, e, sqrt).state, events, sqrt);
  }

  /** Teardown releases the listener and cancels the frame exactly once: a
      second teardown changes nothing. */
  lemma TeardownIdempotent(s: State, sqrt: real -> real)
    requires IsSqrt(sqrt) && Good(s)
    ensures var once := Step(s, Teardown, sqrt);
      && once.state.phase == Unmounted
      && once.state.listeners == 0 && !once.state.framePending
      && once.commands == []
      && Step(once.state, Teardown, sqrt) == Outcome(once.state, [])
  {
  }

  /** After teardown nothing is drawn and nothing changes until the next
      mount, whatever frames or resizes arrive. */
  lemma {:induction false} QuietAfterTeardown(s: State, events: seq<Event>, sqrt: real -> real)
    requires IsSqrt(sqrt) && s.phase != Running && NoMount(events)
    ensures Run(s, events, sqrt).commands == []
    ensures Run(s, events, sqrt).state.phase != Running
    ensures Run(s, events, sqrt).state.particles == s.particles
    decreases |events|
  {
    if |events| > 0 {
      assert NoMount(events[1..]) by {
        forall k | 0 <= k < |events[1..]| ensures !events[1..][k].Mount? {
          assert events[1..][k] == events[k + 1];
        }
      }
      QuietAfterTeardown(Step(s, events[0], sqrt).state, events[1..], sqrt);
    }
  }
}

=== FILE: links.dfy ===
/** `connect`: a line between every visited pair of particles closer than
    `maxDistance`, fading linearly with distance. */
module Links {
  import opened Canvas
  import opened Particles
  import opened PairScan

  /** `Math.sqrt`, taken as a parameter. The model relies on these facts of
      it: on non-negative inputs it is non-negative, zero exactly at zero,
      and strictly increasing. */
  ghost predicate IsSqrt(sqrt: real -> real)
  {
    && sqrt(0.0) == 0.0
    && (forall s :: 0.0 <= s ==> 0.0 <= sqrt(s))
    && (forall s, t :: 0.0 <= s < t ==> sqrt(s) < sqrt(t))
  }

  function SquaredDistance(p: Particle, q: Particle): real
  {
    (p.x - q.x) * (p.x - q.x) + (p.y - q.y) * (p.y - q.y)
  }

  function Distance(sqrt: real -> real, p: Particle, q: Particle): real
  {
    sqrt(SquaredDistance(p, q))
  }

  lemma SquaredDistanceFacts(p: Particle, q: Particle)
    ensures 0.0 <= SquaredDistance(p, q)
    ensures SquaredDistance(p, q) == SquaredDistance(q, p)
    ensures SquaredDistance(p, p) == 0.0
  {
  }

  /** Distance is non-negative, symmetric, and zero from a particle to itself. */
  lemma DistanceFacts(sqrt: real -> real, p: Particle, q: Particle)
    requires IsSqrt(sqrt)
    ensures 0.0 <= Distance(sqrt, p, q)
    ensures Distance(sqrt, p, q) == Distance(sqrt, q, p)
    ensures Distance(sqrt, p, p) == 0.0
  {
  }

  const LinkLightness := 70.0
  const LinkAlphaScale := 0.2
  const LinkWidth := 1.0

  /** The test of `connect`: strictly closer than `maxDistance`. */
  predicate Linked(sqrt: real -> real, config: Config, p: Particle, q: Particle)
  {
    Distance(sqrt, p, q) < config.maxDistance
  }

  /** The stroke alpha of a link of length `d`. */
  function LinkAlpha(d: real, config: Config): (alpha: real)
    requires 0.0 <= d < config.maxDistance
    ensures config.opacity > 0.0 ==> 0.0 < alpha <= LinkAlphaScale * config.opacity
    ensures d == 0.0 ==> alpha == LinkAlphaScale * config.opacity
  {
    (1.0 - d / config.maxDistance) * LinkAlphaScale * config.opacity
  }

  /** Alpha falls as the distance grows. */
  lemma LinkAlphaFalls(d1: real, d2: real, config: Config)
    requires 0.0 <= d1 <= d2 < config.maxDistance
    requires config.opacity >= 0.0
    ensures LinkAlpha(d1, config) >= LinkAlpha(d2, config)
  {
  }

  /** The line `connect` strokes from `p` to `q`. */
  function Link(sqrt: real -> real, config: Config, p: Particle, q: Particle): Command
    requires IsSqrt(sqrt) && Linked(sqrt, config, p, q)
  {
    DistanceFacts(sqrt, p, q);
    Line(Position(p), Position(q),
         Hsla(Hue, Saturation, LinkLightness, LinkAlpha(Distance(sqrt, p, q), config)),
         LinkWidth)
  }

  function LinkOf(sqrt: real -> real, config: Config, ps: seq<Particle>, pair: Pair): seq<Command>
    requires IsSqrt(sqrt) && pair.0 < |ps| && pair.1 < |ps|
  {
    if Linked(sqrt, config, ps[pair.0], ps[pair.1]) then [Link(sqrt, config, ps[pair.0], ps[pair.1])] else []
  }

  /** The lines emitted while visiting `pairs` in order. */
  function LinksOver(sqrt: real -> real, config: Config, ps: seq<Particle>, pairs: seq<Pair>): seq<Command>
    requires IsSqrt(sqrt) && Within(pairs, |ps|)
  {
    if |pairs| == 0 then []
    else LinkOf(sqrt, config, ps, pairs[0]) + LinksOver(sqrt, config, ps, pairs[1..])
  }

  /** The lines of one whole link pass. */
  function LinkPass(sqrt: real -> real, config: Config, ps: seq<Particle>): seq<Command>
    requires IsSqrt(sqrt)
  {
    PairsWithin(|ps|);
    LinksOver(sqrt, config, ps, Pairs(|ps|))
  }

  lemma {:induction false} LinksOverAppend(sqrt: real -> real, config: Config, ps: seq<Particle>, x: seq<Pair>, y: seq<Pair>)
    requires IsSqrt(sqrt) && Within(x, |ps|) && Within(y, |ps|)
    ensures Within(x + y, |ps|)
    ensures LinksOver(sqrt, config, ps, x + y) == LinksOver(sqrt, config, ps, x) + LinksOver(sqrt, config, ps, y)
    decreases |x|
  {
    if |x| > 0 {
      assert (x + y)[0] == x[0];
      assert (x + y)[1..] == x[1..] + y;
      LinksOverAppend(sqrt, config, ps, x[1..], y);
      assert LinksOver(sqrt, config, ps, x + y)
          == LinkOf(sqrt, config, ps, x[0]) + LinksOver(sqrt, config, ps, x[1..] + y);
    } else {
      assert x + y == y;
    }
  }

  /** Visiting the head of a row, then the rest of the row. */
  lemma RowStep(sqrt: real -> real, config: Config, ps: seq<Particle>, a: nat, b: nat)
    requires IsSqrt(sqrt) && a <= b < |ps|
    ensures Within(Row(a, b, |ps|), |ps|) && Within(Row(a, b + 1, |ps|), |ps|)
    ensures LinksOver(sqrt, config, ps, Row(a, b, |ps|))
         == LinkOf(sqrt, config, ps, (a, b)) + LinksOver(sqrt, config, ps, Row(a, b + 1, |ps|))
  {
    RowWithin(a, b, |ps|);
    RowWithin(a, b + 1, |ps|);
    var row := Row(a, b, |ps|);
    assert row[0] == (a, b) && row[1..] == Row(a, b + 1, |ps|);
  }

  /** One iteration of the inner loop keeps the lines still to come in step. */
  lemma RowAdvance(sqrt: real -> real, config: Config, ps: seq<Particle>, a: nat, b: nat,
                   lines: seq<Command>, whole: seq<Command>)
    requires IsSqrt(sqrt) && a <= b < |ps| && Within(Row(a, b, |ps|), |ps|)
    requires lines + LinksOver(sqrt, config, ps, Row(a, b, |ps|)) == whole
    ensures Within(Row(a, b + 1, |ps|), |ps|)
    ensures Linked(sqrt, config, ps[a], ps[b]) ==>
      lines + [Link(sqrt, config, ps[a], ps[b])] + LinksOver(sqrt, config, ps, Row(a, b + 1, |ps|)) == whole
    ensures !Linked(sqrt, config, ps[a], ps[b]) ==>
      lines + LinksOver(sqrt, config, ps, Row(a, b + 1, |ps|)) == whole
  {
    RowStep(sqrt, config, ps, a, b);
    var rest := LinksOver(sqrt, config, ps, Row(a, b + 1, |ps|));
    if Linked(sqrt, config, ps[a], ps[b]) {
      var line := Link(sqrt, config, ps[a], ps[b]);
      assert LinkOf(sqrt, config, ps, (a, b)) == [line];
      assert lines + [line] + rest == lines + ([line] + rest);
    }
  }

  /** Visiting a whole row, then the later rows. */
  lemma RowsStep(sqrt: real -> real, config: Config, ps: seq<Particle>, a: nat)
    requires IsSqrt(sqrt) && a < |ps|
    ensures Within(Row(a, a, |ps|), |ps|) && Within(PairsFrom(a, |ps|), |ps|) && Within(PairsFrom(a + 1, |ps|), |ps|)
    ensures LinksOver(sqrt, config, ps, PairsFrom(a, |ps|))
         == LinksOver(sqrt, config, ps, Row(a, a, |ps|)) + LinksOver(sqrt, config, ps, PairsFrom(a + 1, |ps|))
  {
    RowWithin(a, a, |ps|);
    PairsFromWithin(a, |ps|);
    PairsFromWithin(a + 1, |ps|);
    LinksOverAppend(sqrt, config, ps, Row(a, a, |ps|), PairsFrom(a + 1, |ps|));
  }

  /** The inner loop of `connect` for row `a`: `b` runs from `a` to the end. */
  method ConnectRow(sqrt: real -> real, config: Config, ps: seq<Particle>, a: nat) returns (lines: seq<Command>)
    requires IsSqrt(sqrt) && a < |ps|
    ensures Within(Row(a, a, |ps|), |ps|)
    ensures lines == LinksOver(sqrt, config, ps, Row(a, a, |ps|))
  {
    var n := |ps|;
    RowWithin(a, a, n);
    ghost var whole := LinksOver(sqrt, config, ps, Row(a, a, n));
    lines := [];
    var b := a;
    while b < n
      invariant a <= b <= n
      invariant Within(Row(a, b, n), n)
      invariant lines + LinksOver(sqrt, config, ps, Row(a, b, n)) == whole
    {
      RowAdvance(sqrt, config, ps, a, b, lines, whole);
      if Linked(sqrt, config, ps[a], ps[b]) {
        lines := lines + [Link(sqrt, config, ps[a], ps[b])];
      }
      b := b + 1;
    }
    assert Row(a, n, n) == [];
  }

  /** `connect` as written: the outer loop over `a`, each row scanned by `ConnectRow`. */
  method Connect(sqrt: real -> real, config: Config, ps: seq<Particle>) returns (lines: seq<Command>)
    requires IsSqrt(sqrt)
    ensures lines == LinkPass(sqrt, config, ps)
  {
    var n := |ps|;
    lines := [];
    var a := 0;
    PairsFromWithin(0, n);
    while a < n
      invariant a <= n
      invariant Within(PairsFrom(a, n), n)
      invariant lines + LinksOver(sqrt, config, ps, PairsFrom(a, n)) == LinkPass(sqrt, config, ps)
    {
      RowsStep(sqrt, config, ps, a);
      var row := ConnectRow(sqrt, config, ps, a);
      lines := lines + row;
      a := a + 1;
    }
  }

  /** A visited pair is linked exactly when a line for it is emitted, and
      every emitted line belongs to some visited linked pair. */
  lemma {:induction false} LinksOverMembers(sqrt: real -> real, config: Config, ps: seq<Particle>, pairs: seq<Pair>)
    requires IsSqrt(sqrt) && Within(pairs, |ps|)
    ensures forall k :: 0 <= k < |pairs| && Linked(sqrt, config, ps[pairs[k].0], ps[pairs[k].1]) ==>
              Link(sqrt, config, ps[pairs[k].0], ps[pairs[k].1]) in LinksOver(sqrt, config, ps, pairs)
    ensures forall c :: c in LinksOver(sqrt, config, ps, pairs) ==>
              exists k :: 0 <= k < |pairs| && Linked(sqrt, config, ps[pairs[k].0], ps[pairs[k].1])
                          && c == Link(sqrt, config, ps[pairs[k].0], ps[pairs[k].1])
    decreases |pairs|
  {
    if |pairs| > 0 {
      var tail := pairs[1..];
      LinksOverMembers(sqrt, config, ps, tail);
      var all := LinksOver(sqrt, config, ps, pairs);
      var head := LinkOf(sqrt, config, ps, pairs[0]);
      assert all == head + LinksOver(sqrt, config, ps, tail);
      forall c | c in all
        ensures exists k :: 0 <= k < |pairs| && Linked(sqrt, config, ps[pairs[k].0], ps[pairs[k].1])
                            && c == Link(sqrt, config, ps[pairs[k].0], ps[pairs[k].1])
      {
        if c in head {
          assert Linked(sqrt, config, ps[pairs[0].0], ps[pairs[0].1]);
        } else {
          var j :| 0 <= j < |tail| && Linked(sqrt, config, ps[tail[j].0], ps[tail[j].1])
                   && c == Link(sqrt, config, ps[tail[j].0], ps[tail[j].1]);
          assert tail[j] == pairs[j + 1];
        }
      }
      forall k | 0 <= k < |pairs| && Linked(sqrt, config, ps[pairs[k].0], ps[pairs[k].1])
        ensures Link(sqrt, config, ps[pairs[k].0], ps[pairs[k].1]) in all
      {
        if k > 0 {
          assert pairs[k] == tail[k - 1];
        }
      }
    }
  }

  /** Every linked pair `a <= b` gets its line in the link pass. */
  lemma LinkedPairDrawn(sqrt: real -> real, config: Config, ps: seq<Particle>, a: nat, b: nat)
    requires IsSqrt(sqrt) && a <= b < |ps|
    requires Linked(sqrt, config, ps[a], ps[b])
    ensures Link(sqrt, config, ps[a], ps[b]) in LinkPass(sqrt, config, ps)
  {
    var n := |ps|;
    PairsWithin(n);
    PairsMembers(n, a, b);
    var k :| 0 <= k < |Pairs(n)| && Pairs(n)[k] == (a, b);
    LinksOverMembers(sqrt, config, ps, Pairs(n));
  }

  /** Every line of the link pass joins a linked pair `a <= b`. */
  lemma DrawnLineLinked(sqrt: real -> real, config: Config, ps: seq<Particle>, c: Command)
    requires IsSqrt(sqrt) && c in LinkPass(sqrt, config, ps)
    ensures exists a: nat, b: nat :: a <= b < |ps| && Linked(sqrt, config, ps[a], ps[b])
                                     && c == Link(sqrt, config, ps[a], ps[b])
  {
    var n := |ps|;
    PairsWithin(n);
    LinksOverMembers(sqrt, config, ps, Pairs(n));
    var k :| 0 <= k < |Pairs(n)| && Linked(sqrt, config, ps[Pairs(n)[k].0], ps[Pairs(n)[k].1])
             && c == Link(sqrt, config, ps[Pairs(n)[k].0], ps[Pairs(n)[k].1]);
    PairsFromMembers(0, n, Pairs(n)[k]);
  }

  /** Every line is a width-1 stroke of hue 160 and lightness 70 whose alpha
      lies in (0, 0.2 * opacity]. */
  lemma DrawnLineFaint(sqrt: real -> real, config: Config, ps: seq<Particle>, c: Command)
    requires IsSqrt(sqrt) && c in LinkPass(sqrt, config, ps)
    requires config.opacity > 0.0
    ensures c.Line? && c.lineWidth == LinkWidth
    ensures c.stroke.hue == Hue && c.stroke.lightness == LinkLightness
    ensures 0.0 < c.stroke.alpha <= LinkAlphaScale * config.opacity
  {
    DrawnLineLinked(sqrt, config, ps, c);
    var a: nat, b: nat :| a <= b < |ps| && Linked(sqrt, config, ps[a], ps[b])
                          && c == Link(sqrt, config, ps[a], ps[b]);
    DistanceFacts(sqrt, ps[a], ps[b]);
  }

  /** With a positive reach, every particle is linked to itself by a
      zero-length line at full link alpha. */
  lemma SelfPairDrawn(sqrt: real -> real, config: Config, ps: seq<Particle>, i: nat)
    requires IsSqrt(sqrt) && i < |ps| && config.maxDistance > 0.0
    ensures Linked(sqrt, config, ps[i], ps[i])
    ensures Link(sqrt, config, ps[i], ps[i]) in LinkPass(sqrt, config, ps)
    ensures Link(sqrt, config, ps[i], ps[i]).from == Link(sqrt, config, ps[i], ps[i]).to
    ensures Link(sqrt, config, ps[i], ps[i]).stroke.alpha == LinkAlphaScale * config.opacity
  {
    DistanceFacts(sqrt, ps[i], ps[i]);
    LinkedPairDrawn(sqrt, config, ps, i, i);
  }

  /** The link between two particles does not depend on the order of the pair:
      the same test, the same alpha, the same segment reversed. */
  lemma LinkSymmetric(sqrt: real -> real, config: Config, p: Particle, q: Particle)
    requires IsSqrt(sqrt)
    ensures Linked(sqrt, config, p, q) <==> Linked(sqrt, config, q, p)
    ensures Linked(sqrt, config, p, q) ==>
      && Link(sqrt, config, p, q).stroke == Link(sqrt, config, q, p).stroke
      && Link(sqrt, config, p, q).from == Link(sqrt, config, q, p).to
      && Link(sqrt, config, p, q).to == Link(sqrt, config, q, p).from
  {
  }

  /** A pair no farther apart than a linked pair is linked too. */
  lemma CloserPairLinked(sqrt: real -> real, config: Config, p: Particle, q: Particle, p': Particle, q': Particle)
    requires IsSqrt(sqrt)
    requires SquaredDistance(p, q) <= SquaredDistance(p', q')
    requires Linked(sqrt, config, p', q')
    ensures Linked(sqrt, config, p, q)
  {
  }

  /** With no positive reach nothing is linked. */
  lemma NoReachNoLines(sqrt: real -> real, config: Config, ps: seq<Particle>)
    requires IsSqrt(sqrt) && config.maxDistance <= 0.0
    ensures LinkPass(sqrt, config, ps) == []
  {
    if LinkPass(sqrt, config, ps) != [] {
      DrawnLineLinked(sqrt, config, ps, LinkPass(sqrt, config, ps)[0]);
      var a: nat, b: nat :| a <= b < |ps| && Linked(sqrt, config, ps[a], ps[b]);
      DistanceFacts(sqrt, ps[a], ps[b]);
    }
  }

  lemma {:induction false} LinksOverLength(sqrt: real -> real, config: Config, ps: seq<Particle>, pairs: seq<Pair>)
    requires IsSqrt(sqrt) && Within(pairs, |ps|)
    ensures |LinksOver(sqrt, config, ps, pairs)| <= |pairs|
    decreases |pairs|
  {
    if |pairs| > 0 {
      LinksOverLength(sqrt, config, ps, pairs[1..]);
    }
  }

  /** A pass over `n` particles strokes at most `n(n+1)/2` lines. */
  lemma LinksBound(sqrt: real -> real, config: Config, ps: seq<Particle>)
    requires IsSqrt(sqrt)
    ensures 2 * |LinkPass(sqrt, config, ps)| <= |ps| * (|ps| + 1)
  {
    PairsWithin(|ps|);
    LinksOverLength(sqrt, config, ps, Pairs(|ps|));
    PairsLength(|ps|);
  }
}

=== FILE: pairs.dfy ===
/** The index pairs the link pass of `connect` visits: the outer index `a`
    runs upwards over the particles and the inner index `b` from `a`
    upwards, so each unordered pair is visited once and every particle is
    also paired with itself. */
module PairScan {

  type Pair = (nat, nat)

  /** The inner loop of row `a`, from `b` to the end. */
  function Row(a: nat, b: nat, n: nat): seq<Pair>
    decreases n - b
  {
    if b >= n then [] else [(a, b)] + Row(a, b + 1, n)
  }

  /** The outer loop, from row `a` to the end. */
  function PairsFrom(a: nat, n: nat): seq<Pair>
    decreases n - a
  {
    if a >= n then [] else Row(a, a, n) + PairsFrom(a + 1, n)
  }

  function Pairs(n: nat): seq<Pair>
  {
    PairsFrom(0, n)
  }

  /** Every pair the scan visits indexes the particle sequence. */
  predicate Within(pairs: seq<Pair>, n: nat)
  {
    forall k :: 0 <= k < |pairs| ==> pairs[k].0 < n && pairs[k].1 < n
  }

  predicate Before(p: Pair, q: Pair)
  {
    p.0 < q.0 || (p.0 == q.0 && p.1 < q.1)
  }

  /** Visit order is strictly ascending, so no pair is visited twice. */
  predicate Ascending(pairs: seq<Pair>)
  {
    forall k, l :: 0 <= k < l < |pairs| ==> Before(pairs[k], pairs[l])
  }

  lemma {:induction false} RowMembers(a: nat, b: nat, n: nat, p: Pair)
    ensures p in Row(a, b, n) <==> p.0 == a && b <= p.1 < n
    decreases n - b
  {
    if b < n {
      RowMembers(a, b + 1, n, p);
    }
  }

  lemma {:induction false} PairsFromMembers(a: nat, n: nat, p: Pair)
    ensures p in PairsFrom(a, n) <==> a <= p.0 <= p.1 < n
    decreases n - a
  {
    if a < n {
      var row := Row(a, a, n);
      var rest := PairsFrom(a + 1, n);
      assert PairsFrom(a, n) == row + rest;
      RowMembers(a, a, n, p);
      PairsFromMembers(a + 1, n, p);
      assert p in row + rest <==> p in row || p in rest;
    } else {
      assert PairsFrom(a, n) == [];
    }
  }

  /** The scan visits exactly the pairs `a <= b < n`, self-pairs included. */
  lemma PairsMembers(n: nat, a: nat, b: nat)
    ensures (a, b) in Pairs(n) <==> a <= b < n
  {
    PairsFromMembers(0, n, (a, b));
  }

  lemma {:induction false} RowLength(a: nat, b: nat, n: nat)
    requires b <= n
    ensures |Row(a, b, n)| == n - b
    decreases n - b
  {
    if b < n {
      RowLength(a, b + 1, n);
    }
  }

  lemma {:induction false} PairsFromLength(a: nat, n: nat)
    requires a <= n
    ensures 2 * |PairsFrom(a, n)| == (n - a) * (n - a + 1)
    decreases n - a
  {
    if a < n {
      RowLength(a, a, n);
      PairsFromLength(a + 1, n);
      var m := n - a;
      assert m * (m + 1) == 2 * m + (m - 1) * m;
    }
  }

  /** `n` particles give `n(n+1)/2` visited pairs. */
  lemma PairsLength(n: nat)
    ensures 2 * |Pairs(n)| == n * (n + 1)
  {
    PairsFromLength(0, n);
  }

  lemma RowWithin(a: nat, b: nat, n: nat)
    requires a < n
    ensures Within(Row(a, b, n), n)
  {
    forall k | 0 <= k < |Row(a, b, n)|
      ensures Row(a, b, n)[k].0 < n && Row(a, b, n)[k].1 < n
    {
      RowMembers(a, b, n, Row(a, b, n)[k]);
    }
  }

  lemma PairsFromWithin(a: nat, n: nat)
    ensures Within(PairsFrom(a, n), n)
  {
    forall k | 0 <= k < |PairsFrom(a, n)|
      ensures PairsFrom(a, n)[k].0 < n && PairsFrom(a, n)[k].1 < n
    {
      PairsFromMembers(a, n, PairsFrom(a, n)[k]);
    }
  }

  lemma PairsWithin(n: nat)
    ensures Within(Pairs(n), n)
  {
    forall k | 0 <= k < |Pairs(n)|
      ensures Pairs(n)[k].0 < n && Pairs(n)[k].1 < n
    {
      PairsFromMembers(0, n, Pairs(n)[k]);
    }
  }

  lemma {:induction false} RowAscending(a: nat, b: nat, n: nat)
    ensures Ascending(Row(a, b, n))
    decreases n - b
  {
    if b < n {
      RowAscending(a, b + 1, n);
      var r := Row(a, b, n);
      forall k, l | 0 <= k < l < |r|
        ensures Before(r[k], r[l])
      {
        RowMembers(a, b + 1, n, r[l]);
        if k > 0 {
          RowMembers(a, b + 1, n, r[k]);
        }
      }
    }
  }

  lemma {:induction false} PairsFromAscending(a: nat, n: nat)
    ensures Ascending(PairsFrom(a, n))
    decreases n - a
  {
    if a < n {
      RowAscending(a, a, n);
      PairsFromAscending(a + 1, n);
      var row := Row(a, a, n);
      var rest := PairsFrom(a + 1, n);
      var all := row + rest;
      forall k, l | 0 <= k < l < |all|
        ensures Before(all[k], all[l])
      {
        if k < |row| && l >= |row| {
          RowMembers(a, a, n, all[k]);
          PairsFromMembers(a + 1, n, all[l]);
        } else if k >= |row| {
          assert all[k] == rest[k - |row|] && all[l] == rest[l - |row|];
        }
      }
    }
  }

  /** The scan never visits a pair twice. */
  lemma PairsDistinct(n: nat)
    ensures forall k, l :: 0 <= k < l < |Pairs(n)| ==> Pairs(n)[k] != Pairs(n)[l]
  {
    PairsFromAscending(0, n);
  }
}

=== FILE: particle.dfy ===
/** One particle of the field: how it is built from random draws, how it
    moves on each tick, and how it is drawn. */
module Particles {
  import opened Canvas

  /** A value of `Math.random()`: a real in [0, 1). */
  type Unit = r: real | 0.0 <= r < 1.0

  /** The seven draws the particle constructor takes, in call order. */
  datatype Sample = Sample(x: Unit, y: Unit, size: Unit, speedX: Unit, speedY: Unit,
                           lightness: Unit, alpha: Unit)

  /** The component's four numeric props. */
  datatype Config = Config(density: real, speed: real, maxDistance: real, opacity: real)

  const DefaultConfig := Config(100.0, 0.5, 150.0, 0.7)

  const Hue := 160.0
  const Saturation := 100.0

  datatype Particle = Particle(x: real, y: real, size: real, speedX: real, speedY: real, color: Hsla)

  function Abs(r: real): real { if r < 0.0 then -r else r }

  /** A coordinate inside [0, extent], the closed range the bounce test keeps. */
  predicate InRange(c: real, extent: nat) { 0.0 <= c <= extent as real }

  /** The bounce test of `update`: strictly beyond either edge. */
  predicate Outside(c: real, extent: nat) { c > extent as real || c < 0.0 }

  /** The particle constructor, with `Math.random()` replaced by the draws in `s`. */
  function Construct(width: nat, height: nat, speed: real, s: Sample): (p: Particle)
    ensures width > 0 ==> 0.0 <= p.x < width as real
    ensures width == 0 ==> p.x == 0.0
    ensures height > 0 ==> 0.0 <= p.y < height as real
    ensures height == 0 ==> p.y == 0.0
    ensures 1.0 <= p.size < 4.0
    ensures speed > 0.0 ==> -speed / 2.0 <= p.speedX < speed / 2.0 && -speed / 2.0 <= p.speedY < speed / 2.0
    ensures Abs(p.speedX) <= Abs(speed) / 2.0 && Abs(p.speedY) <= Abs(speed) / 2.0
    ensures p.color.hue == Hue && p.color.saturation == Saturation
    ensures 50.0 <= p.color.lightness < 70.0
    ensures 0.1 <= p.color.alpha < 0.4
  {
    Particle(Spread(s.x, width), Spread(s.y, height), s.size * 3.0 + 1.0,
             Jitter(s.speedX, speed), Jitter(s.speedY, speed),
             Hsla(Hue, Saturation, 50.0 + s.lightness * 20.0, 0.1 + s.alpha * 0.3))
  }

  /** Each attribute of a new particle is driven by its own draw, in the
      order the constructor calls `Math.random()`: a larger draw for that
      attribute gives a larger value, whatever the other draws are. */
  lemma ConstructFollowsDraws(width: nat, height: nat, speed: real, s: Sample, t: Sample)
    ensures var p, q := Construct(width, height, speed, s), Construct(width, height, speed, t);
      && (width > 0 && s.x < t.x ==> p.x < q.x)
      && (height > 0 && s.y < t.y ==> p.y < q.y)
      && (s.size < t.size ==> p.size < q.size)
      && (speed > 0.0 && s.speedX < t.speedX ==> p.speedX < q.speedX)
      && (speed > 0.0 && s.speedY < t.speedY ==> p.speedY < q.speedY)
      && (s.lightness < t.lightness ==> p.color.lightness < q.color.lightness)
      && (s.alpha < t.alpha ==> p.color.alpha < q.color.alpha)
  {
    var p, q := Construct(width, height, speed, s), Construct(width, height, speed, t);
    if width > 0 && s.x < t.x {
      SpreadIncreasing(s.x, t.x, width);
      assert p.x == Spread(s.x, width) && q.x == Spread(t.x, width);
    }
    if height > 0 && s.y < t.y {
      SpreadIncreasing(s.y, t.y, height);
      assert p.y == Spread(s.y, height) && q.y == Spread(t.y, height);
    }
    if speed > 0.0 && s.speedX < t.speedX {
      JitterIncreasing(s.speedX, t.speedX, speed);
      assert p.speedX == Jitter(s.speedX, speed) && q.speedX == Jitter(t.speedX, speed);
    }
    if speed > 0.0 && s.speedY < t.speedY {
      JitterIncreasing(s.speedY, t.speedY, speed);
      assert p.speedY == Jitter(s.speedY, speed) && q.speedY == Jitter(t.speedY, speed);
    }
  }

  lemma SpreadIncreasing(a: Unit, b: Unit, extent: nat)
    requires a < b && extent > 0
    ensures Spread(a, extent) < Spread(b, extent)
  {
    var d: real := b - a;
    var sa, sb := Spread(a, extent), Spread(b, extent);
    PositiveProduct(d, extent as real);
    assert sb - sa == d * (extent as real);
  }

  lemma JitterIncreasing(a: Unit, b: Unit, speed: real)
    requires a < b && speed > 0.0
    ensures Jitter(a, speed) < Jitter(b, speed)
  {
    var d: real := b - a;
    var ja, jb := Jitter(a, speed), Jitter(b, speed);
    PositiveProduct(d, speed);
    assert jb - ja == d * speed;
  }

  lemma PositiveProduct(x: real, y: real)
    requires x > 0.0 && y > 0.0
    ensures x * y > 0.0
  {
  }

  /** `Math.random() * extent`: a coordinate in [0, extent), or 0 on an empty axis. */
  function Spread(r: Unit, extent: nat): (c: real)
    ensures extent > 0 ==> 0.0 <= c < extent as real
    ensures extent == 0 ==> c == 0.0
  {
    r * extent as real
  }

  /** `(Math.random() - 0.5) * speed`: a velocity component of at most half the speed. */
  function Jitter(r: Unit, speed: real): (v: real)
    ensures speed > 0.0 ==> -speed / 2.0 <= v < speed / 2.0
    ensures Abs(v) <= Abs(speed) / 2.0
  {
    (r - 0.5) * speed
  }

  /** `update`: move by the current velocity, then flip each velocity
      component whose new coordinate lies beyond an edge. The position
      itself is never clamped. */
  function Update(p: Particle, width: nat, height: nat): (q: Particle)
    ensures q.x == p.x + p.speedX && q.y == p.y + p.speedY
    ensures q.size == p.size && q.color == p.color
    ensures Outside(q.x, width) ==> q.speedX == -p.speedX
    ensures !Outside(q.x, width) ==> q.speedX == p.speedX
    ensures Outside(q.y, height) ==> q.speedY == -p.speedY
    ensures !Outside(q.y, height) ==> q.speedY == p.speedY
  {
    var x := p.x + p.speedX;
    var y := p.y + p.speedY;
    p.(x := x, y := y,
       speedX := if Outside(x, width) then -p.speedX else p.speedX,
       speedY := if Outside(y, height) then -p.speedY else p.speedY)
  }

  function Position(p: Particle): Point
  {
    Point(p.x, p.y)
  }

  /** `draw`: a filled disc at the particle's position. The particle's own
      alpha is used as is; the component's `opacity` is not applied here. */
  function Render(p: Particle): (c: Command)
    ensures c.Disc? && c.center.x == p.x && c.center.y == p.y
    ensures c.radius == p.size && c.fill == p.color
  {
    Disc(Position(p), p.size, p.color)
  }

  /** One axis of a particle is tracked when either its coordinate lies in
      [0, extent] or one step of its current velocity brings it back there. */
  predicate Tracked(c: real, v: real, extent: nat)
  {
    InRange(c, extent) || InRange(c + v, extent)
  }

  predicate Contained(p: Particle, width: nat, height: nat)
  {
    Tracked(p.x, p.speedX, width) && Tracked(p.y, p.speedY, height)
  }

  /** A freshly built particle lies in the surface. */
  lemma ConstructContained(width: nat, height: nat, speed: real, s: Sample)
    ensures InRange(Construct(width, height, speed, s).x, width)
    ensures InRange(Construct(width, height, speed, s).y, height)
    ensures Contained(Construct(width, height, speed, s), width, height)
  {
  }

  /** The velocity magnitude never changes. */
  lemma UpdateKeepsSpeed(p: Particle, width: nat, height: nat)
    ensures Abs(Update(p, width, height).speedX) == Abs(p.speedX)
    ensures Abs(Update(p, width, height).speedY) == Abs(p.speedY)
  {
  }

  /** A particle that starts inside and is carried outside by one tick is
      carried back to exactly where it started by the next tick, moving with
      the reflected velocity. Both axes behave this way independently. */
  lemma BounceBackX(p: Particle, width: nat, height: nat)
    requires InRange(p.x, width)
    requires Outside(Update(p, width, height).x, width)
    ensures Update(Update(p, width, height), width, height).x == p.x
    ensures Update(Update(p, width, height), width, height).speedX == -p.speedX
  {
  }

  lemma BounceBackY(p: Particle, width: nat, height: nat)
    requires InRange(p.y, height)
    requires Outside(Update(p, width, height).y, height)
    ensures Update(Update(p, width, height), width, height).y == p.y
    ensures Update(Update(p, width, height), width, height).speedY == -p.speedY
  {
  }

  /** Reflection without clamping keeps every particle within one step of
      the surface for ever, on a surface whose size does not change. */
  lemma UpdateKeepsContained(p: Particle, width: nat, height: nat)
    requires Contained(p, width, height)
    ensures Contained(Update(p, width, height), width, height)
  {
  }

  /** Hence the overshoot past an edge is at most one tick's speed. */
  lemma ContainedOvershoot(p: Particle, width: nat, height: nat)
    requires Contained(p, width, height)
    ensures -Abs(p.speedX) <= p.x <= width as real + Abs(p.speedX)
    ensures -Abs(p.speedY) <= p.y <= height as real + Abs(p.speedY)
  {
  }
}

=== FILE: population.dfy ===
/** `init`: the population size derived from the surface area and
    `density`, and the full reseed that builds that many new particles. */
module Population {
  import opened Particles

  /** One "baseline" particle per whole 10000 square pixels of surface. */
  const AreaPerParticle: nat := 10000

  function BaseCount(width: nat, height: nat): nat
  {
    (width * height) / AreaPerParticle
  }

  /** `numberOfParticles`: the loop bound, a real that need not be whole. */
  function Target(width: nat, height: nat, density: real): real
  {
    (BaseCount(width, height) as real * density) / 100.0
  }

  /** The guard of the seeding loop: index `i` still gets a particle. */
  predicate Admits(target: real, i: nat)
  {
    (i as real) < target
  }

  /** The number of loop iterations: the first index the guard refuses. */
  function PopulationSize(target: real): (n: nat)
    ensures !Admits(target, n)
    ensures n > 0 ==> Admits(target, n - 1)
  {
    if target <= 0.0 then 0
    else if target.Floor as real == target then target.Floor
    else target.Floor + 1
  }

  /** The loop pushes one particle for exactly the indices below the bound. */
  lemma AdmitsExactlyBelowSize(target: real, i: nat)
    ensures Admits(target, i) <==> i < PopulationSize(target)
  {
  }

  /** The size is the ceiling of a positive bound, so a fractional bound rounds up. */
  lemma PopulationSizeIsCeiling(target: real)
    ensures target <= 0.0 ==> PopulationSize(target) == 0
    ensures target > 0.0 ==> target <= PopulationSize(target) as real < target + 1.0
  {
  }

  function SeedSize(width: nat, height: nat, config: Config): nat
  {
    PopulationSize(Target(width, height, config.density))
  }

  /** The particles a reseed produces: particle `i` is built from the `i`-th
      group of draws. Nothing of any earlier population survives. */
  function Seed(width: nat, height: nat, config: Config, draws: nat -> Sample): (ps: seq<Particle>)
    ensures |ps| == SeedSize(width, height, config)
    ensures forall i :: 0 <= i < |ps| ==> ps[i] == Construct(width, height, config.speed, draws(i))
    ensures forall i :: 0 <= i < |ps| ==> InRange(ps[i].x, width) && InRange(ps[i].y, height)
  {
    var n := SeedSize(width, height, config);
    seq(n, i requires 0 <= i < n => Construct(width, height, config.speed, draws(i)))
  }

  /** `init` as written: empty the array, then push while `i < numberOfParticles`. */
  method Init(current: seq<Particle>, width: nat, height: nat, config: Config, draws: nat -> Sample)
    returns (ps: seq<Particle>)
    ensures |ps| == SeedSize(width, height, config)
    ensures ps == Seed(width, height, config, draws)
  {
    ps := current[..0];
    var target := Target(width, height, config.density);
    var i: nat := 0;
    while Admits(target, i)
      invariant i <= PopulationSize(target)
      invariant |ps| == i
      invariant forall k :: 0 <= k < i ==> ps[k] == Construct(width, height, config.speed, draws(k))
      decreases PopulationSize(target) - i
    {
      ps := ps + [Construct(width, height, config.speed, draws(i))];
      i := i + 1;
    }
  }

  /** Worked sizes: a fractional bound rounds up; empty or small surfaces get none. */
  lemma SizeExamples()
    ensures SeedSize(700, 100, DefaultConfig.(density := 150.0)) == 11
    ensures SeedSize(1000, 1000, DefaultConfig) == 100
    ensures SeedSize(1000, 1000, DefaultConfig.(density := 50.0)) == 50
    ensures SeedSize(800, 600, DefaultConfig) == 48
    ensures SeedSize(0, 0, DefaultConfig) == 0
    ensures SeedSize(99, 100, DefaultConfig) == 0
  {
  }

  /** Below 10000 square pixels the population is empty whatever the density. */
  lemma SmallSurfaceIsEmpty(width: nat, height: nat, config: Config)
    requires width * height < AreaPerParticle
    ensures SeedSize(width, height, config) == 0
  {
    assert BaseCount(width, height) == 0;
  }
}
